=== FILE: README.md ===
# TwitchDropsMiner core in Dafny

A model of two self-contained pieces of the miner and proofs about them.

- **The message catalog** (`translate.py`) covers:
  - the English base catalog, as a nested tree of string-keyed maps with message templates at the leaves;
  - the record shape its type declarations promise;
  - the language list built from the catalog file stems;
  - the language switch state machine;
  - the `current` language;
  - lookup of a message by its key path, with its three error cases.
- **The start-up rules** (`main.py`) cover:
  - the logging levels derived from the parsed command line;
  - the supervisor that runs the client, modelled as an event trace with an exit code or an escaping exception.

  The supervisor's trace records four things:
  - the settings failure (exit 4) and the single-instance lock failure (exit 3);
  - the classification of how `run()` ends (exit 0 or 1, and `prevent_close`);
  - the `finally` cleanup and the save;
  - the outer `finally` that closes the lock file.

Modules, one per file:

| module | file | models |
|---|---|---|
| `Results` | results.dfy | `Option` and `Result` |
| `Catalog` | catalog.dfy | the catalog tree `Node` and its walk by key path; the key-path join; the declared `Shape` and conformance to it |
| `DefaultTranslation` | default_translation.dfy | the base catalog and its declared shape |
| `Languages` | languages.dfy | string order; `list.sort()` and `list.remove`; the language list |
| `Translate` | translator.dfy | the translator state, `set_language`, `current`, lookup, and the start-up language selection |
| `CliArgs` | cli_args.dfy | `ParsedArgs.logging_level`, `debug_ws` and `debug_gql` |
| `Supervisor` | supervisor.dfy | the exit-code classification and the cleanup trace |

Four things are inputs rather than modelled code:
- **The catalog file loader.** `json_load` is an input function `load: string -> map<string, Node>`, from the language name to the loaded catalog.
- **The file-stem scan.** The scan's result is the `stems` argument.
- **The in-memory base catalog.** It is passed to `Translate.New` as `base`; the application passes `DefaultTranslation.Base()`.
- **The client, the settings and the lock file.** They appear only as the flags and outcomes of `Supervisor.Env`.

Long message templates in `DefaultTranslation` are written as concatenations of short string literals. They denote the same strings as the source.

## Model

| member | source | states |
|---|---|---|
| DefaultTranslation.StatusMessages | translate.py:88-96 | the status templates, exactly as written; they have exactly the fields the status record declares |
| DefaultTranslation.ChromeMessages | translate.py:102-111 | the browser-login templates; exactly the fields of the declared browser record |
| DefaultTranslation.LoginMessages | translate.py:97-118 | the login templates with the nested browser section; exactly the declared login fields, at both levels |
| DefaultTranslation.ErrorMessages | translate.py:119-123 | the error templates; exactly the declared error fields |
| DefaultTranslation.GuiStatusMessages | translate.py:125-136 | the status-panel templates; exactly the declared panel fields |
| DefaultTranslation.WebsocketMessages | translate.py:137-146 | the websocket-panel templates; exactly the declared websocket fields |
| DefaultTranslation.GuiMessages | translate.py:124-147 | the GUI section; exactly the declared GUI fields, at both levels |
| DefaultTranslation.SectionsConform | translate.py:77-83 | a top level holding "english_name" and four sections that each match their declared record matches the declared catalog record |
| DefaultTranslation.StatusShape | translate.py:14-21 | the declared record as a shape; no contract of its own: `StatusMessages` shows the base catalog conforms to it |
| DefaultTranslation.ChromeShape | translate.py:24-28 | the declared record as a shape; no contract of its own: `ChromeMessages` shows the base catalog conforms to it |
| DefaultTranslation.LoginShape | translate.py:31-39 | the declared record as a shape; no contract of its own: `LoginMessages` shows the base catalog conforms to it |
| DefaultTranslation.ErrorShape | translate.py:42-45 | the declared record as a shape; no contract of its own: `ErrorMessages` shows the base catalog conforms to it |
| DefaultTranslation.GuiStatusShape | translate.py:48-58 | the declared record as a shape; no contract of its own: `GuiStatusMessages` shows the base catalog conforms to it |
| DefaultTranslation.WebsocketShape | translate.py:61-69 | the declared record as a shape; no contract of its own: `WebsocketMessages` shows the base catalog conforms to it |
| DefaultTranslation.GuiShape | translate.py:72-74 | the declared record as a shape; no contract of its own: `GuiMessages` shows the base catalog conforms to it |
| DefaultTranslation.TranslationShape | translate.py:77-83 | the declared record as a shape; no contract of its own: `SectionsConform` and `Base` show that the base catalog conforms to it |
| DefaultTranslation.Base | translate.py:86-148 | the base catalog has every declared field at every level, and nothing more; it never defines the reserved `language_name` |
| DefaultTranslation.BaseIsExhaustive | translate.py:14-83 | every text field that the type declarations name resolves to a template in the base catalog |
| DefaultTranslation.BaseStatus | translate.py:88 | the base catalog's "status" entry is the status section |
| DefaultTranslation.StatusWatching | translate.py:90 | the status section's "watching" entry is the template "Watching: {channel}" |
| DefaultTranslation.BaseWatching | translate.py:88-90 | walking ("status", "watching") in the base catalog finds "Watching: {channel}" |
| Catalog.Walk | translate.py:197-200 | the `for key in path: v = v[key]` loop, failing on a missing key or on a string indexed with a key; no contract of its own: `WalkAppend` and `WalkTwo` describe it |
| Catalog.WalkAppend | translate.py:199-200 | walking `p + q` is walking `p`, then walking `q` from where `p` ended; a failure on `p` is final |
| Catalog.WalkTwo | translate.py:199-200 | a two-key walk into a sub-map finds the entry under both keys |
| Catalog.Join | translate.py:204 | `' -> '.join`; no contract of its own: `JoinSnoc` describes it |
| Catalog.JoinSnoc | translate.py:204 | joining with one more key appends the separator and that key |
| Catalog.ConformingResolves | translate.py:14-83 | a tree that matches a declared shape resolves every declared text path to a string, never to a missing key |
| Languages.LexLeTotal | translate.py:164 | any two identifiers are ordered one way or the other by the string order |
| Languages.LexLeTransitive | translate.py:164 | the string order is transitive |
| Languages.LexLeAntisymmetric | translate.py:164 | two identifiers ordered both ways are equal |
| Languages.AtMostAllByMultiset | translate.py:164 | a lower bound for a list bounds every sub-multiset of it |
| Languages.Insert | translate.py:164 | insertion into a sorted list keeps it sorted and adds exactly that identifier |
| Languages.InsertBehindHead | translate.py:164 | putting the head back in front of a sorted insertion into the tail gives a sorted list holding one more identifier |
| Languages.Sort | translate.py:164 | the sort result is sorted and is a permutation of its input |
| Languages.HeadIsLeast | translate.py:164 | the head of a sorted list is at most every identifier it holds |
| Languages.SortedPermutationHead | translate.py:164 | two sorted permutations of each other have the same head |
| Languages.SameHeadTails | translate.py:164 | lists with the same head and the same identifiers have tails with the same identifiers |
| Languages.SortedPermutationUnique | translate.py:164 | two sorted permutations of each other are equal, so sorting has a single result |
| Languages.RemoveFirst | translate.py:165-166 | the guarded `remove` leaves a list without the name unchanged; otherwise it drops the first occurrence and keeps everything before and after it in place; it drops exactly one occurrence from the multiset and keeps a sorted list sorted |
| Languages.RemoveFirstAtHead | translate.py:165-166 | a match at the head is the first occurrence, and dropping it keeps the rest of the list |
| Languages.RemoveFirstBehindHead | translate.py:165-166 | when the head does not match, the removal from the tail, with the head kept in front, is the removal from the whole list |
| Languages.RemoveFirstKeepsPlace | translate.py:165-166 | a first occurrence at place `j` of the tail is the first occurrence at place `j + 1` of the whole list, behind a non-matching head |
| Languages.RemoveFirstKeepsCount | translate.py:165-166 | keeping a non-matching head keeps the one-occurrence removal |
| Languages.RemoveFirstKeepsOrder | translate.py:165-166 | keeping the head of a sorted list in front of a sorted sub-multiset of its tail keeps it sorted |
| Languages.LanguageList | translate.py:162-167 | the default language comes first and the rest is sorted; every stem is kept, except that one scanned default stem gives way to the one in front; membership is "default or scanned" |
| Languages.LanguageListUnique | translate.py:162-167 | the language list is the only list with the default first and the other stems sorted after it |
| Languages.DefaultListedOnce | translate.py:165-167 | whether or not the default's own file was scanned, the default appears only at index 0 |
| Languages.LanguageListDistinct | translate.py:162-167 | distinct stems give a language list without duplicates |
| Languages.DistinctCounts | translate.py:162-167 | a list has no duplicates exactly when it holds every identifier at most once |
| Translate.New | translate.py:152-167 | a new translator has the default language active over a copy of the base catalog, and lists the default first; a language is listed exactly when it is the default or a scanned stem |
| Translate.SetLanguage | translate.py:177-192 | every raise is a ValueError, and only the unrecognized-language or the defines-`language_name` one; an unrecognized language is refused exactly when unlisted, and nothing changes; success makes `current` the requested language; the overlay is refused exactly when listed, not current, not the default, and it defines `language_name`; the language list and base never change |
| Translate.SetCurrentIsNoOp | translate.py:180-182 | selecting the current language changes nothing and raises nothing |
| Translate.SetDefaultRestoresBase | translate.py:183-192 | switching to the default language makes the catalog the base, with exactly one extra key naming the default language |
| Translate.RejectedOverlayStays | translate.py:186-191 | a refused overlay has already replaced the catalog, so `current` is what the overlay names |
| Translate.AcceptedOverlay | translate.py:186-192 | an accepted overlay becomes the catalog, plus the reserved key |
| Translate.Lookup | translate.py:194-206 | an empty path is exactly the path error; a lookup succeeds exactly when the walk finds a node and returns that node; a missing key fails exactly when the walk misses, naming `current` and the " -> "-joined path; indexing a message string is exactly the `TypeError` case; the only `ValueError` is the empty path |
| Translate.LookupExtends | translate.py:197-205 | looking up a longer path continues from the shorter path's result; a missing key always names the whole path |
| Translate.Current | translate.py:173-175 | the `current` property; no contract of its own: `LookupLanguageName` and `SetLanguage` describe it |
| Translate.LookupLanguageName | translate.py:173-175 | looking up the reserved key alone gives `current` |
| Translate.NamedWalk | translate.py:192 | naming a catalog's language changes no lookup outside the reserved key |
| Translate.NewResolvesDeclared | translate.py:194-206 | over a base with every declared field, a new translator resolves every declared message to a template |
| Translate.StartupResolvesDeclared | translate.py:86-148 | the start-up translator never fails a lookup of a declared message |
| Translate.StartupWatchingTemplate | translate.py:90 | the start-up translator looks up ("status", "watching") as "Watching: {channel}" |
| Translate.SelectConfigured | main.py:103-107 | start-up selection swallows every ValueError, so the translator is what `set_language` left; an unknown language leaves it as it was |
| Translate.UnknownConfiguredStaysDefault | main.py:103-107 | an unknown configured language leaves a new translator on the default language |
| CliArgs.LoggingLevel | main.py:48-50 | the level is the verbosity's table entry, clamped at index 4 (DEBUG) |
| CliArgs.LoggingLevelClamped | main.py:50 | every verbosity of four or more gives the same level |
| CliArgs.LoggingLevelMonotonic | main.py:50 | more `-v` never raises the threshold |
| CliArgs.DebugWs | main.py:52-63 | DEBUG exactly when the switch is on; INFO exactly when it is off and verbosity is at least 4; NOTSET otherwise |
| CliArgs.DebugGql | main.py:65-71 | the same rule as the websocket channel, with its own switch |
| CliArgs.ChannelQuietWhenMainIsDebug | main.py:55-63 | a channel drops to INFO exactly when its switch is off and the main level is DEBUG |
| CliArgs.ChannelsIndependent | main.py:52-71 | each channel's level ignores the other channel's switch and the log/dump switches |
| Supervisor.Project | main.py:162-209 | the order-keeping filter used to state the order properties of the supervisor's trace; it never makes a trace longer |
| Supervisor.ProjectMembers | main.py:162-209 | the filter keeps exactly the trace's events that are in the kept set |
| Supervisor.ProjectAppend | main.py:162-209 | projection distributes over concatenation |
| Supervisor.ProjectAll | main.py:162-209 | projecting onto a superset of the trace's events keeps the trace |
| Supervisor.ProjectNone | main.py:162-209 | projecting onto events the trace lacks gives the empty trace |
| Supervisor.Handle | main.py:142-176 | the classifier catches a captcha, a `KeyboardInterrupt` and any other `Exception`; any other `BaseException` (not an `Exception`, not `KeyboardInterrupt`, not the Ctrl+C cancellation) escapes as itself, and a cancelled run escapes as a `KeyboardInterrupt`; status 1 and `prevent_close` exactly for a captcha or another `Exception` |
| Supervisor.HandleLogLines | main.py:166-176 | each caught outcome logs the one line that names it (captcha, interrupted, fatal), and a captcha or another error calls `prevent_close` before its log line |
| Supervisor.Main | main.py:99-189 | `save` is in the trace, and main() ends with an exit status, exactly when the run outcome is caught and `shutdown()` returns; an exception from `shutdown()` is the one that leaves main(), replacing any in flight; otherwise the exception that escaped the handler leaves it |
| Supervisor.UnhandledEnding | main.py:182-209 | the process ends on an uncaught exception exactly when main() was entered and did not complete, unless a Windows `KeyboardInterrupt` turned that into exit 0; the exception is `shutdown()`'s, or else the one that escaped the handler |
| Supervisor.Supervise | main.py:92-209 | exit 4 exactly on a settings failure; 3 exactly on a lock failure; 1 exactly for a completed captcha or error; 0 exactly for a completed normal end or interrupt, or, on Windows, a `KeyboardInterrupt` that reaches the caller of `asyncio.run` (raised by `shutdown()`, or made from a Ctrl+C cancellation); no other code |
| Supervisor.StartedTrace | main.py:99-209 | past settings and the lock, the trace is launch, handler, cleanup, the save path if reached, the Windows report, then the lock file closed |
| Supervisor.ProjectStarted | main.py:99-209 | projecting a started trace projects each stage |
| Supervisor.SettingsFailureExitsFour | main.py:92-96 | a settings failure exits 4 with nothing else in the trace |
| Supervisor.LockFailureExitsThree | main.py:191-209 | a lock failure exits 3 with no run, no shutdown and no save, and the lock file is closed last |
| Supervisor.PreventCloseStages | main.py:166-176 | only the handler's actions call `prevent_close`, once, after a captcha or another error |
| Supervisor.PreventCloseExactlyOnFailure | main.py:166-176 | over the whole trace, `prevent_close` is called exactly once after a captcha or another `Exception`, and otherwise never |
| Supervisor.CleanupStagesBefore | main.py:99-176 | nothing before the `finally` clause is a cleanup action |
| Supervisor.CleanupStagesAfter | main.py:177-209 | everything from the `finally` clause on is a cleanup action |
| Supervisor.CleanupProjection | main.py:177-209 | past settings and the lock, the cleanup actions of the trace are the `finally` clause, the save path if reached, the Windows report, then the lock file closed |
| Supervisor.CompletedCleanupOrder | main.py:177-209 | on a completed run the cleanup is, in order: handler removal (not on Windows), "exiting", `shutdown()`, "terminated" exactly when no close was requested, one save, then the lock file closed |
| Supervisor.CompletedCleanupShape | main.py:184-189 | the completed stages concatenate to that order |
| Supervisor.AbortedCleanupSkipsSave | main.py:177-209 | when `run()` raises a non-`Exception` or is cancelled, or `shutdown()` raises, the cleanup still runs and the lock file is closed, but there is no "terminated" and no save |
| Supervisor.AbortedCleanupShape | main.py:177-188 | the aborted stages concatenate to that order |
| Supervisor.AbortedTraceHasNoSave | main.py:184-188 | an aborted trace holds neither "terminated" nor the save |
| Supervisor.CancelledRunEnding | main.py:199-209 | a Ctrl+C that cancels the run skips the save; on Windows it ends with "interrupted" and exit 0, elsewhere the `KeyboardInterrupt` escapes; the lock file is closed last either way |
| Supervisor.LockStages | main.py:193-209 | only the lock's own `finally` closes the lock file |
| Supervisor.LockFileClosedLast | main.py:191-209 | every path that tried the lock closes the lock file exactly once, as its last action |
| Supervisor.SaveStages | main.py:187-188 | only the save path saves |
| Supervisor.SaveAtMostOnce | main.py:184-189 | the state is saved at most once, and saved exactly on the completed path |
| Supervisor.Launch | main.py:99-165 | from the start of main() to the awaited `run()`; no contract of its own: `StartedTrace`, `SignalLaunch` and `CleanupStagesBefore` describe it |
| Supervisor.Cleanup | main.py:177-182 | the `finally` clause; no contract of its own: `CompletedCleanupOrder`, `SignalCleanup` and `FatalCleanup` describe it |
| Supervisor.Finish | main.py:184-188 | "terminated" unless a close was requested, then the save; no contract of its own: `CompletedCleanupOrder` and `TerminatedReported` describe it |
| Supervisor.SignalLaunch | main.py:151-153 | the launch installs the signal handlers, only outside Windows |
| Supervisor.SignalCleanup | main.py:178-180 | the cleanup removes them, only outside Windows |
| Supervisor.SignalStages | main.py:151-180 | no other stage touches the signal handlers |
| Supervisor.SignalHandlersBalanced | main.py:151-180 | outside Windows the handlers are installed once and then removed once on every path that reaches main(); never otherwise |
| Supervisor.TerminatedReported | main.py:184-185 | "terminated" is logged exactly on a completed run where no close was requested |
| Supervisor.FatalCleanup | main.py:177-182 | on a captcha or fatal path, the cleanup's actions are "exiting", then `shutdown()` |
| Supervisor.FatalReached | main.py:187-188 | the completed save path contributes the save |
| Supervisor.FatalStages | main.py:172-209 | stage by stage, a fatal error's actions |
| Supervisor.FatalProjection | main.py:172-209 | a fatal error's stage projections concatenate to `prevent_close`, the fatal log, "exiting", `shutdown()`, save, lock file closed |
| Supervisor.FatalErrorSequence | main.py:172-209 | a fatal error gives, in order: `prevent_close`, the fatal log, "exiting", `shutdown()`, save, lock file closed, and no captcha log; exit 1 |
| Supervisor.CaptchaStages | main.py:166-209 | stage by stage, a captcha's actions |
| Supervisor.CaptchaProjection | main.py:166-209 | a captcha's stage projections concatenate to `prevent_close`, the captcha error, "exiting", `shutdown()`, save, lock file closed |
| Supervisor.CaptchaSequence | main.py:166-209 | a captcha gives, in order: `prevent_close`, the captcha error, "exiting", `shutdown()`, save, lock file closed, and no fatal log; exit 1 |

## Left out

**Constants and collaborators**
- The constants module is not part of this model. Its values are assumptions taken from the upstream program:
  - `DEFAULT_LANG = "English"`;
  - `LOGGING_LEVELS = [ERROR, WARNING, INFO, CALL, DEBUG]`, with CALL = 19.
- These file operations are inputs, not models:
  - `json_load`, `json_save` and the language directory glob;
  - the development-mode write of the English template;
  - `lock_file`.
- The order of the scanned stems does not matter, because they are sorted.
- The `Twitch` client and `Settings` appear only through the supervisor's inputs:
  - how `run()` ends;
  - whether `shutdown()` raises;
  - `close_requested`;
  - whether settings loaded.
- These raises are not modelled:
  - the client constructor raising (main.py:143);
  - settings raising a non-`Exception` (main.py:93);
  - `client.save(force=True)` raising (main.py:188): main() then ends without `sys.exit`, and the `finally` at main.py:209 still closes the lock file;
  - `lock_file` raising (main.py:193): `file` is then unbound when main.py:209 runs;
  - the log file handler raising (main.py:126): this happens before the `try` at main.py:162, so no cleanup runs;
  - `json_load` raising inside `set_language` (translate.py:187-189): a `ValueError` from it is swallowed at main.py:105 with the active catalog unchanged, and anything else escapes main(). The model's `load` is total.

**Lookup and formatting**
- A catalog tree holds only strings and objects. The numbers, lists, booleans and `null` that a JSON overlay may also contain cannot be represented, so a loaded catalog is narrower than what `json_load` can return. One example is a non-string `language_name`.
- Message formatting is left out. An error carries the language and the joined path as fields, not as the formatted sentence.
- `json_load`'s merge with the base catalog is inside the loader, so the loaded catalog is whatever `load` returns.
- The supervisor's own log lines call the catalog. Those lookups are assumed to succeed. `Translate.StartupResolvesDeclared` proves this for the default language.

**Runtime and setup**
- These are side effects of libraries and appear only as single trace events:
  - logging handlers, formatters and root-logger levels (main.py:110-140);
  - the signal handler's body.
- asyncio loop mechanics are left out.
- The unused Windows `keyboard_interrupt_handler` is left out.
- Argument parsing, `truststore`, `freeze_support` and the version check are library wrappers and are left out.
- registry.py, gui.py and cache.py are compatibility stubs and are left out:
  - `prevent_close` is the only call into them that the supervisor makes, and it appears only as an event;
  - `close_requested` is an input.

**Boundaries of the model**
- The exit code of a process killed by an exception that nothing catches is Python's business. `Supervise` reports such an exception as `Unhandled` with its class (`Supervisor.UnhandledEnding`).
- `Translator.languages` is only an iterator over the list, so it is not modelled separately.

**Behaviour as the code has it**
- `set_language` assigns the loaded overlay before it checks it (translate.py:187-191). So when it refuses an overlay that defines `language_name`, the overlay stays active, and `current` is whatever the overlay names (`Translate.RejectedOverlayStays`).
- `--debug-ws` and `--debug-gql` give DEBUG whenever the switch is on, at any verbosity (main.py:59-60).
- The lock file is closed after a lock failure too (main.py:193-209). This assumes that `lock_file` returns the file on failure as well as on success; utils.py is not part of this model.
- The `save` is skipped when `shutdown()` raises, when `run()` raises a non-`Exception`, and when Ctrl+C cancels the run (main.py:182-188): each of these leaves main() before main.py:188.

=== FILE: catalog.dfy ===
/**
 The message catalog as a nested, string-keyed tree of message templates,
 the path walk used by lookups, the `' -> '`-joined path used in error
 messages, and the record shapes that the catalog's type declares.
 */
module Catalog {

  /** A catalog node: a message template, or a mapping from keys to children. */
  datatype Node = Leaf(text: string) | Map(entries: map<string, Node>)

  /** Outcome of indexing a node with a key path, one key after the other.
      `KeyMissing` is the KeyError of a mapping without the key;
      `IndexedLeaf` is the TypeError of indexing a message string with a key. */
  datatype Walked = Found(node: Node) | KeyMissing | IndexedLeaf

  /** Index `n` with every key of `path` in turn, left to right. */
  function Walk(n: Node, path: seq<string>): Walked
    decreases |path|
  {
    if |path| == 0 then Found(n)
    else match n
      case Leaf(_) => IndexedLeaf
      case Map(m) => if path[0] in m then Walk(m[path[0]], path[1..]) else KeyMissing
  }

  /** Continue a walk with more keys: an error stays an error. */
  function Continue(w: Walked, rest: seq<string>): Walked
  {
    match w
    case Found(m) => Walk(m, rest)
    case _ => w
  }

  /** Walking `p + q` is walking `p`, then walking `q` from where `p` ended;
      an error met on `p` is the error of the whole walk. */
  lemma {:induction false} WalkAppend(n: Node, p: seq<string>, q: seq<string>)
    ensures Walk(n, p + q) == Continue(Walk(n, p), q)
    decreases |p|
  {
    if |p| == 0 {
      assert p + q == q;
    } else {
      assert (p + q)[0] == p[0];
      assert (p + q)[1..] == p[1..] + q;
      match n
      case Leaf(_) =>
      case Map(m) =>
        if p[0] in m {
          WalkAppend(m[p[0]], p[1..], q);
        }
    }
  }

  /** A two-key walk through nested mappings. */
  lemma WalkTwo(m: map<string, Node>, a: string, b: string)
    requires a in m && m[a].Map? && b in m[a].entries
    ensures Walk(Map(m), [a, b]) == Found(m[a].entries[b])
  {
    assert [a, b][1..] == [b];
    assert [b][1..] == [];
    assert Walk(m[a], [b]) == Walk(m[a].entries[b], []);
  }

  /** `sep.join(parts)`. */
  function Join(parts: seq<string>, sep: string): string
    decreases |parts|
  {
    if |parts| == 0 then ""
    else if |parts| == 1 then parts[0]
    else parts[0] + sep + Join(parts[1..], sep)
  }

  /** Joining one more part appends the separator and that part, so the
      joined path lists every key in order, separated by `sep`. */
  lemma {:induction false} JoinSnoc(parts: seq<string>, last: string, sep: string)
    requires |parts| > 0
    ensures Join(parts + [last], sep) == Join(parts, sep) + sep + last
    decreases |parts|
  {
    if |parts| == 1 {
      assert (parts + [last])[1..] == [last];
    } else {
      assert (parts + [last])[1..] == parts[1..] + [last];
      JoinSnoc(parts[1..], last, sep);
    }
  }

  /** The declared shape of a catalog: a string field, or a record of named fields. */
  datatype Shape = Text | Record(fields: map<string, Shape>)

  /** `n` has exactly the fields of `s`, at every level, with strings at the text fields. */
  predicate Conforms(n: Node, s: Shape)
  {
    match n
    case Leaf(_) => s.Text?
    case Map(m) =>
      && s.Record?
      && m.Keys == s.fields.Keys
      && forall k :: k in m ==> Conforms(m[k], s.fields[k])
  }

  /** `p` names a text field of shape `s`. */
  predicate TextPath(s: Shape, p: seq<string>)
    decreases |p|
  {
    if |p| == 0 then s.Text?
    else s.Record? && p[0] in s.fields && TextPath(s.fields[p[0]], p[1..])
  }

  /** A node that conforms to a shape resolves every text field of that
      shape to a message template: no lookup of a declared key can fail. */
  lemma {:induction false} ConformingResolves(n: Node, s: Shape, p: seq<string>)
    requires Conforms(n, s) && TextPath(s, p)
    ensures Walk(n, p).Found? && Walk(n, p).node.Leaf?
    decreases |p|
  {
    if |p| > 0 {
      var m := n.entries;
      assert p[0] in m;
      ConformingResolves(m[p[0]], s.fields[p[0]], p[1..]);
    }
  }
}

=== FILE: cli_args.dfy ===
/**
 The logging levels derived from the parsed command line: the main level
 from the verbosity count, and the levels of the websocket and GQL debug
 channels.
 */
module CliArgs {

  /** Levels of the standard logging module, and the application's own
      CALL level just below INFO. A lower level shows more records. */
  const NOTSET: int := 0
  const DEBUG: int := 10
  const CALL: int := 19
  const INFO: int := 20
  const WARNING: int := 30
  const ERROR: int := 40

  /** The level for each verbosity, from none to four `-v` flags. */
  const LoggingLevels: seq<int> := [ERROR, WARNING, INFO, CALL, DEBUG]

  /** The parsed command line: the `-v` count and the four switches. */
  datatype ParsedArgs = ParsedArgs(verbose: nat, debugWs: bool, debugGql: bool, log: bool, dump: bool)

  /** The main logging level: the verbosity's entry of the level table,
      verbosities beyond the table's end using its last entry. */
  function LoggingLevel(args: ParsedArgs): (r: int)
    ensures r in LoggingLevels
    ensures args.verbose < |LoggingLevels| ==> r == LoggingLevels[args.verbose]
    ensures args.verbose >= |LoggingLevels| - 1 ==> r == DEBUG
  {
    LoggingLevels[if args.verbose < 4 then args.verbose else 4]
  }

  /** Every verbosity from four up gives the same level as four. */
  lemma LoggingLevelClamped(a: ParsedArgs, b: ParsedArgs)
    requires a.verbose >= 4 && b.verbose >= 4
    ensures LoggingLevel(a) == LoggingLevel(b)
  {
  }

  /** More `-v` flags never raise the threshold: the table is ordered from
      the quietest level to the most verbose. */
  lemma {:induction false} LoggingLevelMonotonic(a: ParsedArgs, b: ParsedArgs)
    requires a.verbose <= b.verbose
    ensures LoggingLevel(b) <= LoggingLevel(a)
  {
    var i := if a.verbose < 4 then a.verbose else 4;
    var j := if b.verbose < 4 then b.verbose else 4;
    assert i <= j;
    assert forall x, y :: 0 <= x <= y < |LoggingLevels| ==> LoggingLevels[y] <= LoggingLevels[x];
  }

  /** The websocket channel's level: DEBUG when its switch is on; otherwise
      INFO at the highest verbosity, so that raw messages stay hidden;
      otherwise NOTSET, inheriting the main level. */
  function DebugWs(args: ParsedArgs): (r: int)
    ensures r == DEBUG <==> args.debugWs
    ensures r == INFO <==> !args.debugWs && args.verbose >= 4
    ensures r == NOTSET <==> !args.debugWs && args.verbose < 4
  {
    if args.debugWs then DEBUG
    else if args.verbose >= 4 then INFO
    else NOTSET
  }

  /** The GQL channel's level, by the same rule with its own switch. */
  function DebugGql(args: ParsedArgs): (r: int)
    ensures r == DEBUG <==> args.debugGql
    ensures r == INFO <==> !args.debugGql && args.verbose >= 4
    ensures r == NOTSET <==> !args.debugGql && args.verbose < 4
  {
    if args.debugGql then DEBUG
    else if args.verbose >= 4 then INFO
    else NOTSET
  }

  /** A channel drops to INFO exactly when its switch is off and the main
      level is DEBUG; a switch that is on gives DEBUG even then. */
  lemma ChannelQuietWhenMainIsDebug(args: ParsedArgs)
    ensures DebugWs(args) == INFO <==> !args.debugWs && LoggingLevel(args) == DEBUG
    ensures DebugGql(args) == INFO <==> !args.debugGql && LoggingLevel(args) == DEBUG
    ensures args.debugWs ==> DebugWs(args) == DEBUG
    ensures args.debugGql ==> DebugGql(args) == DEBUG
  {
  }

  /** Each channel depends only on its own switch and the verbosity, not on
      the other channel's switch or the file and dump switches. */
  lemma ChannelsIndependent(args: ParsedArgs, ws: bool, gql: bool, log: bool, dump: bool)
    ensures DebugWs(args.(debugGql := gql, log := log, dump := dump)) == DebugWs(args)
    ensures DebugGql(args.(debugWs := ws, log := log, dump := dump)) == DebugGql(args)
  {
  }
}

=== FILE: default_translation.dfy ===
/**
 The base (English) catalog held in memory, and the record shape that its
 type declaration promises. The optional `language_name` field is not part of
 the shape: the base catalog never defines it, and a translator adds it itself.
 */
module DefaultTranslation {
  import opened Catalog

  /** The declared fields of the status messages. */
  function StatusShape(): Shape
  {
    Record(map[
      "terminated" := Text, "watching" := Text, "goes_online" := Text,
      "goes_offline" := Text, "claimed_drop" := Text, "no_channel" := Text,
      "no_campaign" := Text])
  }

  /** The declared fields of the browser login messages. */
  function ChromeShape(): Shape
  {
    Record(map[
      "startup" := Text, "login_to_complete" := Text, "no_token" := Text,
      "closed_window" := Text])
  }

  /** The declared fields of the login messages. */
  function LoginShape(): Shape
  {
    Record(map[
      "chrome" := ChromeShape(),
      "error_code" := Text, "unexpected_content" := Text,
      "email_code_required" := Text, "twofa_code_required" := Text,
      "incorrect_login_pass" := Text, "incorrect_email_code" := Text,
      "incorrect_twofa_code" := Text])
  }

  /** The declared fields of the error messages. */
  function ErrorShape(): Shape
  {
    Record(map["captcha" := Text, "no_connection" := Text, "site_down" := Text])
  }

  /** The declared fields of the status panel messages. */
  function GuiStatusShape(): Shape
  {
    Record(map[
      "name" := Text, "idle" := Text, "exiting" := Text, "terminated" := Text,
      "cleanup" := Text, "gathering" := Text, "switching" := Text,
      "fetching_inventory" := Text, "fetching_campaigns" := Text,
      "adding_campaigns" := Text])
  }

  /** The declared fields of the websocket panel messages. */
  function WebsocketShape(): Shape
  {
    Record(map[
      "name" := Text, "websocket" := Text, "initializing" := Text,
      "connected" := Text, "disconnected" := Text, "connecting" := Text,
      "disconnecting" := Text, "reconnecting" := Text])
  }

  /** The declared fields of the GUI messages. */
  function GuiShape(): Shape
  {
    Record(map["status" := GuiStatusShape(), "websocket" := WebsocketShape()])
  }

  /** The declared top level of a catalog, from the shapes of its four message sections. */
  function SectionShapes(status: Shape, login: Shape, error: Shape, gui: Shape): map<string, Shape>
  {
    map["english_name" := Text, "status" := status, "login" := login, "error" := error, "gui" := gui]
  }

  /** The field names of the declared message records, at every level. */
  function TranslationShape(): Shape
  {
    Record(SectionShapes(StatusShape(), LoginShape(), ErrorShape(), GuiShape()))
  }

  /** The base catalog's status messages. */
  function StatusMessages(): (r: map<string, Node>)
    ensures Conforms(Map(r), StatusShape())
  {
    map[
      "terminated" := Leaf("\nApplication " + "Terminated.\n" + "Close the " + "window to "
                        + "exit the " + "application."),
      "watching" := Leaf("Watching: " + "{channel}"),
      "goes_online" := Leaf("{channel} " + "goes ONLINE, " + "switching..."),
      "goes_offline" := Leaf("{channel} " + "goes OFFLINE, " + "switching..."),
      "claimed_drop" := Leaf("Claimed drop: " + "{drop}"),
      "no_channel" := Leaf("No available " + "channels to " + "watch. " + "Waiting for "
                        + "an ONLINE " + "channel..."),
      "no_campaign" := Leaf("No active " + "campaigns to " + "mine drops " + "for. Waiting "
                         + "for an active " + "campaign...")]
  }

  /** The base catalog's messages about the browser login. */
  function ChromeMessages(): (r: map<string, Node>)
    ensures Conforms(Map(r), ChromeShape())
  {
    map[
      "startup" := Leaf("Opening " + "Chrome..."),
      "login_to_complete" := Leaf("Complete the " + "login " + "procedure " + "manually by "
                               + "pressing the " + "Login button " + "again."),
      "no_token" := Leaf("No " + "authorization " + "token could " + "be found."),
      "closed_window" := Leaf("The Chrome " + "window was " + "closed before " + "the login "
                           + "procedure " + "could be " + "completed.")]
  }

  /** The base catalog's login messages. */
  function LoginMessages(): (r: map<string, Node>)
    ensures Conforms(Map(r), LoginShape())
  {
    map[
      "unexpected_content" := Leaf("Unexpected " + "content type " + "returned, " + "usually due "
                                + "to being " + "redirected. " + "Do you need " + "to login for "
                                + "internet " + "access?"),
      "chrome" := Map(ChromeMessages()),
      "error_code" := Leaf("Login error " + "code: " + "{error_code}"),
      "incorrect_login_pass" := Leaf("Incorrect " + "username or " + "password."),
      "incorrect_email_code" := Leaf("Incorrect " + "email code."),
      "incorrect_twofa_code" := Leaf("Incorrect 2FA " + "code."),
      "email_code_required" := Leaf("Email code " + "required. " + "Check your " + "email."),
      "twofa_code_required" := Leaf("2FA token " + "required.")]
  }

  /** The base catalog's error messages. */
  function ErrorMessages(): (r: map<string, Node>)
    ensures Conforms(Map(r), ErrorShape())
  {
    map[
      "captcha" := Leaf("Your login " + "attempt was " + "denied by " + "CAPTCHA.\n"
                     + "Please try " + "again in 12+ " + "hours."),
      "site_down" := Leaf("Twitch is " + "down, " + "retrying in " + "{seconds} " + "seconds..."),
      "no_connection" := Leaf("Cannot " + "connect to " + "Twitch, " + "retrying in "
                           + "{seconds} " + "seconds...")]
  }

  /** The base catalog's status panel messages. */
  function GuiStatusMessages(): (r: map<string, Node>)
    ensures Conforms(Map(r), GuiStatusShape())
  {
    map[
      "name" := Leaf("Status"),
      "idle" := Leaf("Idle"),
      "exiting" := Leaf("Exiting..."),
      "terminated" := Leaf("Terminated"),
      "cleanup" := Leaf("Cleaning up " + "channels..."),
      "gathering" := Leaf("Gathering " + "channels..."),
      "switching" := Leaf("Switching the " + "channel..."),
      "fetching_inventory" := Leaf("Fetching " + "inventory..."),
      "fetching_campaigns" := Leaf("Fetching " + "campaigns..."),
      "adding_campaigns" := Leaf("Adding " + "campaigns to " + "inventory... " + "{counter}")]
  }

  /** The base catalog's websocket panel messages. */
  function WebsocketMessages(): (r: map<string, Node>)
    ensures Conforms(Map(r), WebsocketShape())
  {
    map[
      "name" := Leaf("Websocket " + "Status"),
      "websocket" := Leaf("Websocket " + "#{id}:"),
      "initializing" := Leaf("Initializing..."),
      "connected" := Leaf("Connected"),
      "disconnected" := Leaf("Disconnected"),
      "connecting" := Leaf("Connecting..."),
      "disconnecting" := Leaf("Disconnecting..."),
      "reconnecting" := Leaf("Reconnecting...")]
  }

  /** The base catalog's GUI messages. */
  function GuiMessages(): (r: map<string, Node>)
    ensures Conforms(Map(r), GuiShape())
  {
    map["status" := Map(GuiStatusMessages()), "websocket" := Map(WebsocketMessages())]
  }

  /** The top level of a translation catalog, from its four message sections. */
  function Sections(status: map<string, Node>, login: map<string, Node>,
                    error: map<string, Node>, gui: map<string, Node>): map<string, Node>
  {
    map[
      "english_name" := Leaf("English"),
      "status" := Map(status),
      "login" := Map(login),
      "error" := Map(error),
      "gui" := Map(gui)]
  }

  /** Sections that have their declared fields make a catalog with the
      declared fields, at every level, and nothing more. */
  lemma SectionsConform(status: map<string, Node>, login: map<string, Node>,
                        error: map<string, Node>, gui: map<string, Node>,
                        ss: Shape, ls: Shape, es: Shape, gs: Shape)
    requires Conforms(Map(status), ss) && Conforms(Map(login), ls)
    requires Conforms(Map(error), es) && Conforms(Map(gui), gs)
    ensures Conforms(Map(Sections(status, login, error, gui)), Record(SectionShapes(ss, ls, es, gs)))
  {
    var r, fields := Sections(status, login, error, gui), SectionShapes(ss, ls, es, gs);
    assert r.Keys == fields.Keys;
    forall k | k in r
      ensures Conforms(r[k], fields[k])
    {
      assert k == "english_name" || k == "status" || k == "login" || k == "error" || k == "gui";
    }
  }

  /** The in-memory base catalog. It fills every field its declared shape
      names, with nothing more, and it never defines the reserved
      `language_name` key: a translator adds that key itself. */
  function Base(): (r: map<string, Node>)
    ensures Conforms(Map(r), TranslationShape())
    ensures "language_name" !in r
  {
    SectionsConform(StatusMessages(), LoginMessages(), ErrorMessages(), GuiMessages(),
                    StatusShape(), LoginShape(), ErrorShape(), GuiShape());
    Sections(StatusMessages(), LoginMessages(), ErrorMessages(), GuiMessages())
  }

  /** Every declared text field resolves in the base catalog: the base is
      the exhaustive fallback of last resort. */
  lemma BaseIsExhaustive(p: seq<string>)
    requires TextPath(TranslationShape(), p)
    ensures Walk(Map(Base()), p).Found? && Walk(Map(Base()), p).node.Leaf?
  {
    ConformingResolves(Map(Base()), TranslationShape(), p);
  }

  /** The base catalog's watching status is the exact template. */
  lemma BaseWatching()
    ensures Walk(Map(Base()), ["status", "watching"]) == Found(Leaf("Watching: {channel}"))
  {
    BaseStatus();
    StatusWatching();
    WalkTwo(Base(), "status", "watching");
  }

  lemma BaseStatus()
    ensures "status" in Base() && Base()["status"] == Map(StatusMessages())
  {
  }

  lemma StatusWatching()
    ensures "watching" in StatusMessages()
    ensures StatusMessages()["watching"] == Leaf("Watching: {channel}")
  {
  }
}

=== FILE: languages.dfy ===
/**
 The list of available languages: the stems of the catalog files found on
 disk, sorted, with the default language taken out wherever it was and put
 back in front.
 */
module Languages {

  /** The default language's identifier. */
  const DefaultLang: string := "English"

  /** `a <= b` for strings: lexicographic order by code point. */
  predicate LexLe(a: string, b: string)
    decreases |a|
  {
    |a| == 0 || (|b| > 0 && (a[0] < b[0] || (a[0] == b[0] && LexLe(a[1..], b[1..]))))
  }

  lemma {:induction false} LexLeTotal(a: string, b: string)
    ensures LexLe(a, b) || LexLe(b, a)
    decreases |a|
  {
    if |a| > 0 && |b| > 0 && a[0] == b[0] {
      LexLeTotal(a[1..], b[1..]);
    }
  }

  lemma {:induction false} LexLeTransitive(a: string, b: string, c: string)
    requires LexLe(a, b) && LexLe(b, c)
    ensures LexLe(a, c)
    decreases |a|
  {
    if |a| > 0 && a[0] == b[0] && b[0] == c[0] {
      LexLeTransitive(a[1..], b[1..], c[1..]);
    }
  }

  lemma {:induction false} LexLeAntisymmetric(a: string, b: string)
    requires LexLe(a, b) && LexLe(b, a)
    ensures a == b
    decreases |a|
  {
    if |a| > 0 {
      LexLeAntisymmetric(a[1..], b[1..]);
      assert a == [a[0]] + a[1..];
      assert b == [b[0]] + b[1..];
    }
  }

  /** Every entry is `<=` every later entry. */
  predicate Sorted(s: seq<string>)
  {
    forall i, j :: 0 <= i < j < |s| ==> LexLe(s[i], s[j])
  }

  /** No identifier appears twice. */
  predicate Distinct(s: seq<string>)
  {
    forall i, j :: 0 <= i < j < |s| ==> s[i] != s[j]
  }

  /** `x` is `<=` every entry of `s`. */
  predicate AtMostAll(x: string, s: seq<string>)
  {
    forall i :: 0 <= i < |s| ==> LexLe(x, s[i])
  }

  lemma AtMostAllByMultiset(x: string, s: seq<string>, t: seq<string>)
    requires AtMostAll(x, s) && multiset(t) <= multiset(s)
    ensures AtMostAll(x, t)
  {
    forall i | 0 <= i < |t|
      ensures LexLe(x, t[i])
    {
      assert t[i] in multiset(t);
      assert t[i] in multiset(s);
      var j :| 0 <= j < |s| && s[j] == t[i];
    }
  }

  /** Insert `x` into sorted `s` before the first entry it is `<=` to. */
  function Insert(x: string, s: seq<string>): (r: seq<string>)
    requires Sorted(s)
    ensures Sorted(r)
    ensures multiset(r) == multiset(s) + multiset{x}
    decreases |s|
  {
    if |s| == 0 then [x]
    else if LexLe(x, s[0]) then
      assert AtMostAll(x, s) by {
        forall i | 0 <= i < |s| ensures LexLe(x, s[i]) {
          if i > 0 { LexLeTransitive(x, s[0], s[i]); }
        }
      }
      [x] + s
    else
      var rest := Insert(x, s[1..]);
      InsertBehindHead(x, s, rest);
      [s[0]] + rest
  }

  /** Inserting behind the head of a sorted list keeps it sorted. */
  lemma InsertBehindHead(x: string, s: seq<string>, rest: seq<string>)
    requires |s| > 0 && Sorted(s) && !LexLe(x, s[0])
    requires Sorted(rest) && multiset(rest) == multiset(s[1..]) + multiset{x}
    ensures Sorted([s[0]] + rest)
    ensures multiset([s[0]] + rest) == multiset(s) + multiset{x}
  {
    LexLeTotal(x, s[0]);
    assert AtMostAll(s[0], s[1..] + [x]);
    assert multiset(rest) == multiset(s[1..] + [x]);
    AtMostAllByMultiset(s[0], s[1..] + [x], rest);
    assert s == [s[0]] + s[1..];
  }

  /** `list.sort()` on strings: the sorted permutation of `s`. */
  function Sort(s: seq<string>): (r: seq<string>)
    ensures Sorted(r)
    ensures multiset(r) == multiset(s)
    decreases |s|
  {
    if |s| == 0 then []
    else
      assert s == [s[0]] + s[1..];
      Insert(s[0], Sort(s[1..]))
  }

  /** The first entry of a sorted list is `<=` everything it holds. */
  lemma HeadIsLeast(a: seq<string>, x: string)
    requires Sorted(a) && |a| > 0 && x in multiset(a)
    ensures LexLe(a[0], x)
  {
    assert x in a;
    var i :| 0 <= i < |a| && a[i] == x;
    if i == 0 { LexLeTotal(x, x); }
  }

  /** Two sorted lists holding the same identifiers start alike. */
  lemma SortedPermutationHead(a: seq<string>, b: seq<string>)
    requires Sorted(a) && Sorted(b) && multiset(a) == multiset(b) && |a| > 0
    ensures |b| > 0 && a[0] == b[0]
  {
    assert |a| == |multiset(a)| == |multiset(b)| == |b|;
    assert a[0] in multiset(a) && b[0] in multiset(b);
    HeadIsLeast(a, b[0]);
    HeadIsLeast(b, a[0]);
    LexLeAntisymmetric(a[0], b[0]);
  }

  /** Lists with the same head and the same identifiers have remainders
      with the same identifiers. */
  lemma SameHeadTails(a: seq<string>, b: seq<string>)
    requires |a| > 0 && |b| > 0 && a[0] == b[0] && multiset(a) == multiset(b)
    ensures multiset(a[1..]) == multiset(b[1..])
  {
    assert a == [a[0]] + a[1..] && b == [b[0]] + b[1..];
    assert multiset(a[1..]) == multiset(a) - multiset{a[0]};
    assert multiset(b[1..]) == multiset(b) - multiset{b[0]};
  }

  /** A sorted permutation is unique: any list that is sorted and holds the
      same identifiers equally often is the one `Sort` returns. */
  lemma {:induction false} SortedPermutationUnique(a: seq<string>, b: seq<string>)
    requires Sorted(a) && Sorted(b) && multiset(a) == multiset(b)
    ensures a == b
    decreases |a|
  {
    if |a| == 0 {
      assert |b| == |multiset(b)| == 0;
    } else {
      SortedPermutationHead(a, b);
      SameHeadTails(a, b);
      assert Sorted(a[1..]) && Sorted(b[1..]);
      SortedPermutationUnique(a[1..], b[1..]);
      assert a == [a[0]] + a[1..] && b == [b[0]] + b[1..];
    }
  }

  /** `list.remove(x)` guarded by `x in list`: drop the first occurrence of
      `x`, if there is one. */
  function RemoveFirst(s: seq<string>, x: string): (r: seq<string>)
    ensures x !in s ==> r == s
    ensures x in s ==> exists i :: RemovedFirstAt(s, x, r, i)
    ensures multiset(r) == multiset(s) - multiset{x}
    ensures Sorted(s) ==> Sorted(r)
    decreases |s|
  {
    if |s| == 0 then []
    else if s[0] == x then
      RemoveFirstAtHead(s, x);
      s[1..]
    else
      var rest := RemoveFirst(s[1..], x);
      RemoveFirstBehindHead(s, x, rest);
      [s[0]] + rest
  }

  /** A match at the head is the first occurrence; dropping it keeps the rest. */
  lemma RemoveFirstAtHead(s: seq<string>, x: string)
    requires |s| > 0 && s[0] == x
    ensures RemovedFirstAt(s, x, s[1..], 0)
    ensures multiset(s[1..]) == multiset(s) - multiset{x}
    ensures Sorted(s) ==> Sorted(s[1..])
  {
    assert s == [s[0]] + s[1..];
    assert s[..0] == [];
  }

  /** The contract of `RemoveFirst` on the tail carries over to the whole
      list when the head does not match. */
  lemma RemoveFirstBehindHead(s: seq<string>, x: string, rest: seq<string>)
    requires |s| > 0 && s[0] != x
    requires x !in s[1..] ==> rest == s[1..]
    requires x in s[1..] ==> exists j :: RemovedFirstAt(s[1..], x, rest, j)
    requires multiset(rest) == multiset(s[1..]) - multiset{x}
    requires Sorted(s[1..]) ==> Sorted(rest)
    ensures x !in s ==> [s[0]] + rest == s
    ensures x in s ==> exists i :: RemovedFirstAt(s, x, [s[0]] + rest, i)
    ensures multiset([s[0]] + rest) == multiset(s) - multiset{x}
    ensures Sorted(s) ==> Sorted([s[0]] + rest)
  {
    assert s == [s[0]] + s[1..];
    if x in s {
      assert x in s[1..];
      var j :| RemovedFirstAt(s[1..], x, rest, j);
      RemoveFirstKeepsPlace(s[0], s[1..], x, rest, j);
    }
    RemoveFirstKeepsCount(s, x, rest);
    RemoveFirstKeepsOrder(s, rest);
  }

  /** `r` is `s` with its element at `i` removed, and that element is the
      first occurrence of `x` in `s`. */
  predicate RemovedFirstAt(s: seq<string>, x: string, r: seq<string>, i: int)
  {
    0 <= i < |s| && s[i] == x && x !in s[..i] && r == s[..i] + s[i + 1..]
  }

  /** Keeping a non-matching head `h` in front of a first-occurrence removal
      from the tail `t` removes the same occurrence, one place further on,
      from the whole list. */
  lemma RemoveFirstKeepsPlace(h: string, t: seq<string>, x: string, rest: seq<string>, j: int)
    requires h != x && RemovedFirstAt(t, x, rest, j)
    ensures RemovedFirstAt([h] + t, x, [h] + rest, j + 1)
  {
    var s := [h] + t;
    assert s[..j + 1] == [h] + t[..j];
    assert s[j + 2..] == t[j + 1..];
  }

  lemma RemoveFirstKeepsCount(s: seq<string>, x: string, rest: seq<string>)
    requires |s| > 0 && s[0] != x
    requires multiset(rest) == multiset(s[1..]) - multiset{x}
    ensures multiset([s[0]] + rest) == multiset(s) - multiset{x}
    ensures multiset(rest) <= multiset(s[1..])
  {
    assert s == [s[0]] + s[1..];
    assert multiset(s) == multiset{s[0]} + multiset(s[1..]);
    assert multiset([s[0]] + rest) == multiset{s[0]} + multiset(rest);
  }

  lemma RemoveFirstKeepsOrder(s: seq<string>, rest: seq<string>)
    requires |s| > 0 && multiset(rest) <= multiset(s[1..])
    requires Sorted(s[1..]) ==> Sorted(rest)
    ensures Sorted(s) ==> Sorted([s[0]] + rest)
  {
    if Sorted(s) {
      assert AtMostAll(s[0], s[1..]);
      AtMostAllByMultiset(s[0], s[1..], rest);
      assert Sorted(s[1..]);
    }
  }

  /** The language list built from the scanned file stems. It starts with
      the default language; after it come the other stems, sorted; every
      stem is listed as often as it was scanned, except that one default
      stem, if scanned, is replaced by the one in front. */
  function LanguageList(stems: seq<string>): (r: seq<string>)
    ensures |r| > 0 && r[0] == DefaultLang
    ensures Sorted(r[1..])
    ensures multiset(r) == (multiset(stems) - multiset{DefaultLang}) + multiset{DefaultLang}
    ensures forall x :: x in r <==> x == DefaultLang || x in stems
  {
    var tail := RemoveFirst(Sort(stems), DefaultLang);
    var r := [DefaultLang] + tail;
    assert r[1..] == tail;
    assert forall x :: x in r <==> x == DefaultLang || x in stems by {
      forall x
        ensures x in r <==> x == DefaultLang || x in stems
      {
        assert x in r <==> x in multiset(r);
        assert x in stems <==> x in multiset(stems);
      }
    }
    r
  }

  /** The language list is the only list that starts with the default
      language and holds the other scanned stems, sorted, after it. */
  lemma LanguageListUnique(stems: seq<string>, r: seq<string>)
    requires |r| > 0 && r[0] == DefaultLang && Sorted(r[1..])
    requires multiset(r[1..]) == multiset(stems) - multiset{DefaultLang}
    ensures r == LanguageList(stems)
  {
    var l := LanguageList(stems);
    assert l == [l[0]] + l[1..];
    assert multiset(l) == multiset{DefaultLang} + multiset(l[1..]);
    assert multiset(l[1..]) == multiset(stems) - multiset{DefaultLang};
    SortedPermutationUnique(r[1..], l[1..]);
    assert r == [r[0]] + r[1..];
  }

  /** However the default language's own file was scanned (not at all, or
      once), the default language is listed once, in front, and nowhere else. */
  lemma DefaultListedOnce(stems: seq<string>)
    requires multiset(stems)[DefaultLang] <= 1
    ensures DefaultLang !in LanguageList(stems)[1..]
  {
    var r := LanguageList(stems);
    assert r == [r[0]] + r[1..];
    assert multiset(r)[DefaultLang] == 1;
    assert multiset(r) == multiset{r[0]} + multiset(r[1..]);
  }

  /** Distinct stems make a distinct language list, even when the default
      language's own file was among them. */
  lemma LanguageListDistinct(stems: seq<string>)
    requires Distinct(stems)
    ensures Distinct(LanguageList(stems))
  {
    var r := LanguageList(stems);
    DistinctCounts(stems);
    assert forall x :: multiset(r)[x] <= 1 by {
      forall x ensures multiset(r)[x] <= 1 {
        assert multiset(stems)[x] <= 1;
      }
    }
    DistinctCounts(r);
  }

  /** A list is distinct exactly when it holds every identifier at most once. */
  lemma {:induction false} DistinctCounts(s: seq<string>)
    ensures Distinct(s) <==> forall x :: multiset(s)[x] <= 1
    decreases |s|
  {
    if |s| > 0 {
      var t := s[1..];
      assert s == [s[0]] + t;
      DistinctCounts(t);
      if Distinct(s) {
        assert s[0] !in t;
        assert Distinct(t) by {
          forall i, j | 0 <= i < j < |t| ensures t[i] != t[j] {
            assert t[i] == s[i + 1] && t[j] == s[j + 1];
          }
        }
      }
      if forall x :: multiset(s)[x] <= 1 {
        assert forall x :: multiset(t)[x] <= 1 by {
          forall x ensures multiset(t)[x] <= 1 {
            assert multiset(s)[x] <= 1;
          }
        }
        assert multiset(s)[s[0]] <= 1;
        assert s[0] !in multiset(t);
        forall i, j | 0 <= i < j < |s| ensures s[i] != s[j] {
          if i == 0 {
            assert s[j] == t[j - 1];
            assert s[j] in multiset(t);
          } else {
            assert s[i] == t[i - 1] && s[j] == t[j - 1];
          }
        }
      }
    }
  }
}

=== FILE: results.dfy ===
/** Failure-carrying values used for the source's raised exceptions. */
module Results {

  /** An optional value: `None` when nothing was produced. */
  datatype Option<+T> = None | Some(value: T)

  /** A computation that either produced `value` or raised `error`. */
  datatype Result<+T, +E> = Success(value: T) | Failure(error: E)
}

=== FILE: supervisor.dfy ===
/**
 The process supervisor as an event trace: load settings, take the
 single-instance lock, run the client under one exception classifier, then
 clean up, save and exit. The client, the lock file and the settings are
 represented only by how their calls end.
 */
module Supervisor {
  import opened Results

  /** `sys.platform`: Windows, or a platform with loop signal handlers. */
  datatype Platform = Win32 | Posix

  /** The class of an exception that escapes the classifier: an `Exception`,
      a `KeyboardInterrupt`, or another `BaseException`. */
  datatype Raised = AnError | KeyboardInterrupt | OtherBase

  /** How the client's `run()` ends. */
  datatype RunOutcome =
    | Normal        // returns
    | Captcha       // raises CaptchaRequired
    | KbInterrupt   // raises KeyboardInterrupt
    | OtherExc      // raises any other Exception
    | NonException  // raises any other BaseException: not an Exception, not
                    // KeyboardInterrupt, not the Ctrl+C cancellation
    | Cancelled     // ends in CancelledError: Ctrl+C reached the asyncio runner,
                    // which cancels main() and then raises KeyboardInterrupt

  /** How the client's `shutdown()` ends. */
  datatype ShutdownOutcome = Returned | Raises(error: Raised)

  /** Everything the supervisor's path depends on. `closeRequested` is the
      client's flag as read after cleanup. */
  datatype Env = Env(
    settingsOk: bool,
    lockOk: bool,
    platform: Platform,
    run: RunOutcome,
    closeRequested: bool,
    shutdown: ShutdownOutcome)

  /** The supervisor's observable actions, in the order they happen. */
  datatype Event =
    | SettingsFailed        // "Settings error" on stderr
    | AlreadyRunning        // "Application is already running" on stderr
    | AppStarting           // "Application starting..."
    | SelectLanguage        // set the configured language, ValueError swallowed
    | ConfigureLogging      // logger levels and handlers
    | AddSignalHandlers     // SIGINT and SIGTERM handlers on the loop
    | RunStarted            // the start-up log lines, then `await client.run()`
    | PreventClose          // client.prevent_close()
    | LogCaptcha            // the localized captcha error
    | LogInterrupted        // "Interrupted by user" in the log
    | LogFatal              // "Fatal error encountered:" and the traceback
    | RemoveSignalHandlers  // SIGINT and SIGTERM handlers removed
    | LogExiting            // the localized "exiting" status
    | Shutdown              // `await client.shutdown()`
    | LogTerminated         // the localized "terminated" status
    | Save                  // client.save(force=True)
    | Interrupted           // "Interrupted by user" on stdout, Windows only
    | CloseLockFile         // the lock file is closed

  /** How the process ends: `sys.exit` with a code, or an exception that
      nothing catches. */
  datatype Ending = ExitCode(code: int) | Unhandled(error: Raised)

  /** The trace of actions and the way the process ends. */
  datatype Outcome = Outcome(trace: seq<Event>, ending: Ending)

  /** What the classifier does for one run outcome: the actions of its
      handler, the exit status it sets, and the exception it lets through. */
  datatype Handling = Handling(events: seq<Event>, status: int, escaping: Option<Raised>)

  /** `run()` ends in a way the classifier catches. */
  predicate Caught(run: RunOutcome)
  {
    run != NonException && run != Cancelled
  }

  /** `run()` ends in a failure that the client is told to keep quiet about. */
  predicate Failed(run: RunOutcome)
  {
    run == Captcha || run == OtherExc
  }

  /** main() ends by letting a `KeyboardInterrupt` reach the caller of
      `asyncio.run`: either `shutdown()` raises one, or Ctrl+C cancelled
      the run and the runner turns the cancellation into one. */
  predicate EscapesInterrupt(env: Env)
  {
    env.shutdown == Raises(KeyboardInterrupt) || (env.shutdown == Returned && env.run == Cancelled)
  }

  /** The path on which the supervisor reaches `save` and `sys.exit` in main(). */
  predicate Completes(env: Env)
  {
    env.settingsOk && env.lockOk && Caught(env.run) && env.shutdown == Returned
  }

  /** The actions that unwind a started run, in their intended order. */
  const CleanupEvents: set<Event> :=
    {RemoveSignalHandlers, LogExiting, Shutdown, LogTerminated, Save, Interrupted, CloseLockFile}

  /** `t` with every action outside `keep` dropped, order kept. */
  function Project(t: seq<Event>, keep: set<Event>): (r: seq<Event>)
    ensures |r| <= |t|
    decreases |t|
  {
    if |t| == 0 then []
    else (if t[0] in keep then [t[0]] else []) + Project(t[1..], keep)
  }

  /** Projection keeps exactly the trace's events that are in `keep`. */
  lemma {:induction false} ProjectMembers(t: seq<Event>, keep: set<Event>, e: Event)
    ensures e in Project(t, keep) <==> e in t && e in keep
    decreases |t|
  {
    if |t| > 0 {
      assert t == [t[0]] + t[1..];
      ProjectMembers(t[1..], keep, e);
    }
  }

  /** How often `e` occurs in `t`. */
  function Count(t: seq<Event>, e: Event): nat
  {
    |Project(t, {e})|
  }

  lemma {:induction false} ProjectAppend(a: seq<Event>, b: seq<Event>, keep: set<Event>)
    ensures Project(a + b, keep) == Project(a, keep) + Project(b, keep)
    decreases |a|
  {
    if |a| == 0 {
      assert a + b == b;
    } else {
      var head := if a[0] in keep then [a[0]] else [];
      assert (a + b)[0] == a[0];
      assert (a + b)[1..] == a[1..] + b;
      assert Project(a + b, keep) == head + Project(a[1..] + b, keep);
      ProjectAppend(a[1..], b, keep);
      assert Project(a, keep) == head + Project(a[1..], keep);
    }
  }

  lemma {:induction false} ProjectAll(t: seq<Event>, keep: set<Event>)
    requires forall e :: e in t ==> e in keep
    ensures Project(t, keep) == t
    decreases |t|
  {
    if |t| > 0 {
      assert t == [t[0]] + t[1..];
      ProjectAll(t[1..], keep);
    }
  }

  lemma ProjectNone(t: seq<Event>, keep: set<Event>)
    requires forall e :: e in t ==> e !in keep
    ensures Project(t, keep) == []
  {
  }

  /** Signal handlers are installed only where the loop supports them. */
  function Arm(p: Platform): seq<Event>
  {
    if p == Posix then [AddSignalHandlers] else []
  }

  /** The `finally` clause removes them on the same platforms. */
  function Disarm(p: Platform): seq<Event>
  {
    if p == Posix then [RemoveSignalHandlers] else []
  }

  /** From the start of main() to the awaited `run()`. */
  function Launch(p: Platform): seq<Event>
  {
    [AppStarting, SelectLanguage, ConfigureLogging] + Arm(p) + [RunStarted]
  }

  /** The exception classifier around `run()`: a captcha and any other
      `Exception` set status 1 and call `prevent_close`; an interrupt is
      logged with status 0; any other `BaseException` escapes, and a cancelled run
      reaches the caller of `asyncio.run` as a `KeyboardInterrupt`. */
  function Handle(run: RunOutcome): (h: Handling)
    ensures h.escaping.Some? <==> !Caught(run)
    ensures h.status == (if Failed(run) then 1 else 0)
    ensures PreventClose in h.events <==> Failed(run)
    ensures Caught(run) ==> |h.events| > 0 || run == Normal
    ensures run == NonException ==> h.escaping == Some(OtherBase)
    ensures run == Cancelled ==> h.escaping == Some(KeyboardInterrupt)
  {
    match run
    case Normal => Handling([], 0, None)
    case Captcha => Handling([PreventClose, LogCaptcha], 1, None)
    case KbInterrupt => Handling([LogInterrupted], 0, None)
    case OtherExc => Handling([PreventClose, LogFatal], 1, None)
    case NonException => Handling([], 0, Some(OtherBase))
    case Cancelled => Handling([], 0, Some(KeyboardInterrupt))
  }

  /** The handler logs one line per caught outcome, the one that names it,
      and after a captcha or another error it calls `prevent_close` first. */
  lemma HandleLogLines(run: RunOutcome)
    ensures var h := Handle(run);
      && (Failed(run) ==> |h.events| == 2 && h.events[0] == PreventClose)
      && (LogCaptcha in h.events <==> run == Captcha)
      && (LogInterrupted in h.events <==> run == KbInterrupt)
      && (LogFatal in h.events <==> run == OtherExc)
      && |h.events| <= 2
  {
  }

  /** The `finally` clause: handlers removed, "exiting" logged, the client
      shut down. */
  function Cleanup(p: Platform): seq<Event>
  {
    Disarm(p) + [LogExiting, Shutdown]
  }

  /** After the `finally` clause: "terminated" unless the client itself
      asked to close, then one forced save. */
  function Finish(closeRequested: bool): seq<Event>
  {
    (if closeRequested then [] else [LogTerminated]) + [Save]
  }

  /** The main() coroutine. It always ends by raising: `SystemExit` with the
      classifier's status when it gets that far, otherwise the exception
      that escaped; an exception from `shutdown()` replaces any in flight. */
  function Main(p: Platform, run: RunOutcome, closeRequested: bool, shutdown: ShutdownOutcome): (r: Outcome)
    ensures Save in r.trace <==> Caught(run) && shutdown == Returned
    ensures r.ending.ExitCode? <==> Caught(run) && shutdown == Returned
    ensures shutdown.Raises? ==> r.ending == Unhandled(shutdown.error)
    ensures shutdown == Returned && !Caught(run) ==> r.ending == Unhandled(Handle(run).escaping.value)
  {
    var h := Handle(run);
    var unwound := Launch(p) + h.events + Cleanup(p);
    assert Save !in unwound;
    match shutdown
    case Raises(e) => Outcome(unwound, Unhandled(e))
    case Returned =>
      match h.escaping
      case Some(e) => Outcome(unwound, Unhandled(e))
      case None => Outcome(unwound + Finish(closeRequested), ExitCode(h.status))
  }

  /** The whole process: settings, the lock, main() and the lock file's
      `finally`. Exit 4 for bad settings, 3 when another instance holds the
      lock, 1 after a captcha or an error, 0 after a normal end or an
      interrupt; a Windows interrupt escaping main() also exits 0. */
  function Supervise(env: Env): (r: Outcome)
    ensures r.ending == ExitCode(4) <==> !env.settingsOk
    ensures r.ending == ExitCode(3) <==> env.settingsOk && !env.lockOk
    ensures r.ending == ExitCode(1) <==> Completes(env) && Failed(env.run)
    ensures r.ending == ExitCode(0) <==>
      || (Completes(env) && !Failed(env.run))
      || (env.settingsOk && env.lockOk && env.platform == Win32 && EscapesInterrupt(env))
    ensures r.ending.ExitCode? ==> r.ending.code in {0, 1, 3, 4}
  {
    if !env.settingsOk then
      Outcome([SettingsFailed], ExitCode(4))
    else if !env.lockOk then
      Outcome([AlreadyRunning, CloseLockFile], ExitCode(3))
    else
      var m := Main(env.platform, env.run, env.closeRequested, env.shutdown);
      if env.platform == Win32 && m.ending == Unhandled(KeyboardInterrupt) then
        Outcome(m.trace + [Interrupted, CloseLockFile], ExitCode(0))
      else
        Outcome(m.trace + [CloseLockFile], m.ending)
  }

  /** The process ends on an uncaught exception exactly when main() was
      entered, did not complete, and no Windows interrupt report turned the
      ending into exit 0. The exception is the one `shutdown()` raised, or,
      when `shutdown()` returned, the one that escaped the handler. */
  lemma UnhandledEnding(env: Env)
    ensures Supervise(env).ending.Unhandled? <==>
      env.settingsOk && env.lockOk && !Completes(env) && !(env.platform == Win32 && EscapesInterrupt(env))
    ensures Supervise(env).ending.Unhandled? ==>
      Supervise(env).ending.error ==
        (if env.shutdown.Raises? then env.shutdown.error else Handle(env.run).escaping.value)
  {
  }

  /** The save path's actions when it is reached, and nothing otherwise. */
  function Reached(env: Env): seq<Event>
  {
    if Completes(env) then Finish(env.closeRequested) else []
  }

  /** The Windows report of an interrupt that escaped main(). */
  function WinReport(env: Env): seq<Event>
  {
    if env.platform == Win32 && EscapesInterrupt(env) then [Interrupted] else []
  }

  /** Once settings and the lock are in hand, the trace is the launch, the
      handler's actions, the cleanup, then the save path when it is reached,
      then the Windows interrupt report, then the lock file's closing. */
  lemma StartedTrace(env: Env)
    requires env.settingsOk && env.lockOk
    ensures Supervise(env).trace ==
      Launch(env.platform) + Handle(env.run).events + Cleanup(env.platform)
      + Reached(env) + WinReport(env) + [CloseLockFile]
  {
  }

  /** Projecting a started trace projects each of its stages. */
  lemma ProjectStarted(env: Env, keep: set<Event>)
    requires env.settingsOk && env.lockOk
    ensures Project(Supervise(env).trace, keep) ==
      Project(Launch(env.platform), keep) + Project(Handle(env.run).events, keep)
      + Project(Cleanup(env.platform), keep) + Project(Reached(env), keep)
      + Project(WinReport(env), keep) + Project([CloseLockFile], keep)
  {
    StartedTrace(env);
    var a, b, c := Launch(env.platform), Handle(env.run).events, Cleanup(env.platform);
    var d, e, f := Reached(env), WinReport(env), [CloseLockFile];
    ProjectAppend(a + b + c + d + e, f, keep);
    ProjectAppend(a + b + c + d, e, keep);
    ProjectAppend(a + b + c, d, keep);
    ProjectAppend(a + b, c, keep);
    ProjectAppend(a, b, keep);
  }

  /** Bad settings exit with 4 before the lock is tried or anything runs. */
  lemma SettingsFailureExitsFour(env: Env)
    requires !env.settingsOk
    ensures Supervise(env).ending == ExitCode(4)
    ensures Supervise(env).trace == [SettingsFailed]
  {
  }

  /** A held lock exits with 3: main() never runs, so nothing is shut down
      or saved, and the lock file is still closed. */
  lemma LockFailureExitsThree(env: Env)
    requires env.settingsOk && !env.lockOk
    ensures Supervise(env).ending == ExitCode(3)
    ensures RunStarted !in Supervise(env).trace
    ensures Shutdown !in Supervise(env).trace && Save !in Supervise(env).trace
    ensures Supervise(env).trace[|Supervise(env).trace| - 1] == CloseLockFile
  {
  }

  /** Outside its handler's actions, a started trace never calls `prevent_close`. */
  lemma PreventCloseStages(env: Env)
    ensures Project(Launch(env.platform), {PreventClose}) == []
    ensures Project(Cleanup(env.platform), {PreventClose}) == []
    ensures Project(Reached(env), {PreventClose}) == []
    ensures Project(WinReport(env), {PreventClose}) == []
    ensures Project([CloseLockFile], {PreventClose}) == []
    ensures Project(Handle(env.run).events, {PreventClose}) == (if Failed(env.run) then [PreventClose] else [])
  {
    var keep := {PreventClose};
    ProjectNone(Launch(env.platform), keep);
    ProjectNone(Cleanup(env.platform), keep);
    ProjectNone(Reached(env), keep);
    ProjectNone(WinReport(env), keep);
    ProjectNone([CloseLockFile], keep);
    var h := Handle(env.run).events;
    if Failed(env.run) {
      assert h == [PreventClose] + h[1..];
      ProjectAppend([PreventClose], h[1..], keep);
      ProjectNone(h[1..], keep);
      ProjectAll([PreventClose], keep);
    } else {
      ProjectNone(h, keep);
    }
  }

  /** `prevent_close` is called exactly once after a captcha or another
      `Exception`, and never otherwise. */
  lemma PreventCloseExactlyOnFailure(env: Env)
    requires env.settingsOk && env.lockOk
    ensures Project(Supervise(env).trace, {PreventClose}) == (if Failed(env.run) then [PreventClose] else [])
  {
    ProjectStarted(env, {PreventClose});
    PreventCloseStages(env);
  }

  /** Past settings and the lock, the cleanup actions of a trace are the
      `finally` clause, the save path if reached, the Windows report, and the
      lock file closed. */
  lemma CleanupProjection(env: Env)
    requires env.settingsOk && env.lockOk
    ensures Project(Supervise(env).trace, CleanupEvents) ==
      Cleanup(env.platform) + Reached(env) + WinReport(env) + [CloseLockFile]
  {
    ProjectStarted(env, CleanupEvents);
    CleanupStagesBefore(env);
    CleanupStagesAfter(env);
  }

  /** The stages before the `finally` clause hold no cleanup action. */
  lemma CleanupStagesBefore(env: Env)
    ensures Project(Launch(env.platform), CleanupEvents) == []
    ensures Project(Handle(env.run).events, CleanupEvents) == []
  {
    ProjectNone(Launch(env.platform), CleanupEvents);
    ProjectNone(Handle(env.run).events, CleanupEvents);
  }

  /** The stages from the `finally` clause on hold nothing but cleanup actions. */
  lemma CleanupStagesAfter(env: Env)
    ensures Project(Cleanup(env.platform), CleanupEvents) == Cleanup(env.platform)
    ensures Project(Reached(env), CleanupEvents) == Reached(env)
    ensures Project(WinReport(env), CleanupEvents) == WinReport(env)
    ensures Project([CloseLockFile], CleanupEvents) == [CloseLockFile]
  {
    ProjectAll(Cleanup(env.platform), CleanupEvents);
    ProjectAll(Reached(env), CleanupEvents);
    ProjectAll(WinReport(env), CleanupEvents);
    ProjectAll([CloseLockFile], CleanupEvents);
  }

  /** On the completed path the cleanup happens in order: handlers removed
      (not on Windows), "exiting" logged, `shutdown()`, "terminated" exactly
      when the client did not ask to close, one save, the lock file closed. */
  lemma CompletedCleanupOrder(env: Env)
    requires Completes(env)
    ensures Project(Supervise(env).trace, CleanupEvents) ==
      (if env.platform == Posix then [RemoveSignalHandlers] else [])
      + [LogExiting, Shutdown]
      + (if env.closeRequested then [] else [LogTerminated])
      + [Save, CloseLockFile]
  {
    CleanupProjection(env);
    CompletedCleanupShape(env);
  }

  lemma CompletedCleanupShape(env: Env)
    requires Completes(env)
    ensures Cleanup(env.platform) + Reached(env) + WinReport(env) + [CloseLockFile] ==
      (if env.platform == Posix then [RemoveSignalHandlers] else [])
      + [LogExiting, Shutdown]
      + (if env.closeRequested then [] else [LogTerminated])
      + [Save, CloseLockFile]
  {
    var report := if env.closeRequested then [] else [LogTerminated];
    assert Reached(env) == report + [Save];
    assert WinReport(env) == [];
  }

  /** When `run()` raises a non-`Exception` or is cancelled, or `shutdown()` raises, the
      `finally` cleanup still runs and the lock file is still closed, but
      neither "terminated" nor the save is reached. */
  lemma AbortedCleanupSkipsSave(env: Env)
    requires env.settingsOk && env.lockOk && !Completes(env)
    ensures Project(Supervise(env).trace, CleanupEvents) ==
      (if env.platform == Posix then [RemoveSignalHandlers] else [])
      + [LogExiting, Shutdown]
      + (if env.platform == Win32 && EscapesInterrupt(env) then [Interrupted] else [])
      + [CloseLockFile]
    ensures Save !in Supervise(env).trace && LogTerminated !in Supervise(env).trace
  {
    CleanupProjection(env);
    AbortedCleanupShape(env);
    AbortedTraceHasNoSave(env);
  }

  lemma AbortedCleanupShape(env: Env)
    requires !Completes(env)
    ensures Cleanup(env.platform) + Reached(env) + WinReport(env) + [CloseLockFile] ==
      (if env.platform == Posix then [RemoveSignalHandlers] else [])
      + [LogExiting, Shutdown]
      + (if env.platform == Win32 && EscapesInterrupt(env) then [Interrupted] else [])
      + [CloseLockFile]
  {
    assert Reached(env) == [];
  }

  lemma AbortedTraceHasNoSave(env: Env)
    requires env.settingsOk && env.lockOk && !Completes(env)
    ensures Save !in Supervise(env).trace && LogTerminated !in Supervise(env).trace
  {
    StartedTrace(env);
    assert Reached(env) == [];
    var t := Launch(env.platform) + Handle(env.run).events + Cleanup(env.platform) + WinReport(env) + [CloseLockFile];
    assert Supervise(env).trace == t;
    assert Save !in Handle(env.run).events && LogTerminated !in Handle(env.run).events;
  }

  /** Ctrl+C that reaches the asyncio runner cancels the run: the `finally`
      cleanup runs, nothing is saved, and on Windows the interrupt is
      reported and the process exits 0, while elsewhere it escapes. */
  lemma CancelledRunEnding(env: Env)
    requires env.settingsOk && env.lockOk && env.run == Cancelled && env.shutdown == Returned
    ensures env.platform == Win32 ==> Supervise(env).ending == ExitCode(0)
    ensures env.platform == Posix ==> Supervise(env).ending == Unhandled(KeyboardInterrupt)
    ensures var t := Supervise(env).trace;
      |t| >= 2 && t[|t| - 1] == CloseLockFile
      && (t[|t| - 2] == Interrupted <==> env.platform == Win32)
    ensures Save !in Supervise(env).trace && Shutdown in Supervise(env).trace
  {
    StartedTrace(env);
    AbortedTraceHasNoSave(env);
  }

  /** Only the last stage of a started trace closes the lock file. */
  lemma LockStages(env: Env)
    ensures Project(Launch(env.platform), {CloseLockFile}) == []
    ensures Project(Handle(env.run).events, {CloseLockFile}) == []
    ensures Project(Cleanup(env.platform), {CloseLockFile}) == []
    ensures Project(Reached(env), {CloseLockFile}) == []
    ensures Project(WinReport(env), {CloseLockFile}) == []
    ensures Project([CloseLockFile], {CloseLockFile}) == [CloseLockFile]
    ensures Project([AlreadyRunning, CloseLockFile], {CloseLockFile}) == [CloseLockFile]
  {
    var keep := {CloseLockFile};
    ProjectNone(Launch(env.platform), keep);
    ProjectNone(Handle(env.run).events, keep);
    ProjectNone(Cleanup(env.platform), keep);
    ProjectNone(Reached(env), keep);
    ProjectNone(WinReport(env), keep);
    ProjectAll([CloseLockFile], keep);
    assert [AlreadyRunning, CloseLockFile] == [AlreadyRunning] + [CloseLockFile];
    ProjectAppend([AlreadyRunning], [CloseLockFile], keep);
    ProjectNone([AlreadyRunning], keep);
  }

  /** Every path that tried the lock ends by closing the lock file, once. */
  lemma LockFileClosedLast(env: Env)
    requires env.settingsOk
    ensures var t := Supervise(env).trace; |t| > 0 && t[|t| - 1] == CloseLockFile
    ensures Count(Supervise(env).trace, CloseLockFile) == 1
  {
    LockStages(env);
    if env.lockOk {
      StartedTrace(env);
      ProjectStarted(env, {CloseLockFile});
    }
  }

  /** Only the save path of a started trace saves, and it saves once. */
  lemma SaveStages(env: Env)
    ensures Project(Launch(env.platform), {Save}) == []
    ensures Project(Handle(env.run).events, {Save}) == []
    ensures Project(Cleanup(env.platform), {Save}) == []
    ensures Project(WinReport(env), {Save}) == []
    ensures Project([CloseLockFile], {Save}) == []
    ensures Project(Reached(env), {Save}) == (if Completes(env) then [Save] else [])
  {
    var keep := {Save};
    ProjectNone(Launch(env.platform), keep);
    ProjectNone(Handle(env.run).events, keep);
    ProjectNone(Cleanup(env.platform), keep);
    ProjectNone(WinReport(env), keep);
    ProjectNone([CloseLockFile], keep);
    if Completes(env) {
      var report := if env.closeRequested then [] else [LogTerminated];
      assert Reached(env) == report + [Save];
      ProjectAppend(report, [Save], keep);
      ProjectNone(report, keep);
      ProjectAll([Save], keep);
    } else {
      ProjectNone(Reached(env), keep);
    }
  }

  /** State is saved at most once, and exactly on the completed path. */
  lemma SaveAtMostOnce(env: Env)
    ensures Count(Supervise(env).trace, Save) <= 1
    ensures Save in Supervise(env).trace <==> Completes(env)
  {
    if env.settingsOk && env.lockOk {
      StartedTrace(env);
      ProjectStarted(env, {Save});
      SaveStages(env);
    } else {
      ProjectNone(Supervise(env).trace, {Save});
    }
  }

  /** The launch installs the signal handlers, outside Windows. */
  lemma SignalLaunch(p: Platform)
    ensures Project(Launch(p), {AddSignalHandlers, RemoveSignalHandlers}) == Arm(p)
  {
    var keep := {AddSignalHandlers, RemoveSignalHandlers};
    var pre := [AppStarting, SelectLanguage, ConfigureLogging];
    assert Launch(p) == pre + Arm(p) + [RunStarted];
    ProjectAppend(pre + Arm(p), [RunStarted], keep);
    ProjectAppend(pre, Arm(p), keep);
    ProjectNone(pre, keep);
    ProjectAll(Arm(p), keep);
    ProjectNone([RunStarted], keep);
  }

  /** The cleanup removes the signal handlers, outside Windows. */
  lemma SignalCleanup(p: Platform)
    ensures Project(Cleanup(p), {AddSignalHandlers, RemoveSignalHandlers}) == Disarm(p)
  {
    var keep := {AddSignalHandlers, RemoveSignalHandlers};
    ProjectAppend(Disarm(p), [LogExiting, Shutdown], keep);
    ProjectAll(Disarm(p), keep);
    ProjectNone([LogExiting, Shutdown], keep);
  }

  /** Only the launch and the cleanup of a started trace touch the signal
      handlers, each once and only outside Windows. */
  lemma SignalStages(env: Env)
    ensures Project(Launch(env.platform), {AddSignalHandlers, RemoveSignalHandlers}) == Arm(env.platform)
    ensures Project(Handle(env.run).events, {AddSignalHandlers, RemoveSignalHandlers}) == []
    ensures Project(Cleanup(env.platform), {AddSignalHandlers, RemoveSignalHandlers}) == Disarm(env.platform)
    ensures Project(Reached(env), {AddSignalHandlers, RemoveSignalHandlers}) == []
    ensures Project(WinReport(env), {AddSignalHandlers, RemoveSignalHandlers}) == []
    ensures Project([CloseLockFile], {AddSignalHandlers, RemoveSignalHandlers}) == []
  {
    var keep := {AddSignalHandlers, RemoveSignalHandlers};
    SignalLaunch(env.platform);
    SignalCleanup(env.platform);
    ProjectNone(Handle(env.run).events, keep);
    ProjectNone(Reached(env), keep);
    ProjectNone(WinReport(env), keep);
    ProjectNone([CloseLockFile], keep);
  }

  /** Signal handlers are installed once and removed once, in that order,
      on every path that reaches main() outside Windows, and never otherwise. */
  lemma SignalHandlersBalanced(env: Env)
    ensures Project(Supervise(env).trace, {AddSignalHandlers, RemoveSignalHandlers}) ==
      (if env.settingsOk && env.lockOk && env.platform == Posix
       then [AddSignalHandlers, RemoveSignalHandlers] else [])
  {
    if env.settingsOk && env.lockOk {
      ProjectStarted(env, {AddSignalHandlers, RemoveSignalHandlers});
      SignalStages(env);
    } else {
      ProjectNone(Supervise(env).trace, {AddSignalHandlers, RemoveSignalHandlers});
    }
  }

  /** "terminated" is logged exactly on the completed path when the client
      has not asked to close. */
  lemma TerminatedReported(env: Env)
    ensures LogTerminated in Supervise(env).trace <==> Completes(env) && !env.closeRequested
  {
    if env.settingsOk && env.lockOk {
      StartedTrace(env);
      var before := Launch(env.platform) + Handle(env.run).events + Cleanup(env.platform);
      assert LogTerminated !in before;
      assert LogTerminated !in WinReport(env) + [CloseLockFile];
      assert LogTerminated in Reached(env) <==> Completes(env) && !env.closeRequested;
      assert Supervise(env).trace == before + Reached(env) + (WinReport(env) + [CloseLockFile]);
    }
  }

  /** The actions that follow a captcha or another error, stage by stage. */
  const FailureEvents: set<Event> :=
    {PreventClose, LogCaptcha, LogFatal, LogExiting, Shutdown, Save, CloseLockFile}

  lemma FatalCleanup(p: Platform)
    ensures Project(Cleanup(p), FailureEvents) == [LogExiting, Shutdown]
  {
    ProjectAppend(Disarm(p), [LogExiting, Shutdown], FailureEvents);
    ProjectNone(Disarm(p), FailureEvents);
    ProjectAll([LogExiting, Shutdown], FailureEvents);
  }

  lemma FatalReached(env: Env)
    requires Completes(env)
    ensures Project(Reached(env), FailureEvents) == [Save]
  {
    var report := if env.closeRequested then [] else [LogTerminated];
    assert Reached(env) == report + [Save];
    ProjectAppend(report, [Save], FailureEvents);
    ProjectNone(report, FailureEvents);
    ProjectAll([Save], FailureEvents);
  }

  lemma FatalStages(env: Env)
    requires Completes(env) && env.run == OtherExc
    ensures Project(Launch(env.platform), FailureEvents) == []
    ensures Project(Handle(env.run).events, FailureEvents) == [PreventClose, LogFatal]
    ensures Project(Cleanup(env.platform), FailureEvents) == [LogExiting, Shutdown]
    ensures Project(Reached(env), FailureEvents) == [Save]
    ensures Project(WinReport(env), FailureEvents) == []
    ensures Project([CloseLockFile], FailureEvents) == [CloseLockFile]
  {
    ProjectNone(Launch(env.platform), FailureEvents);
    ProjectAll(Handle(env.run).events, FailureEvents);
    FatalCleanup(env.platform);
    FatalReached(env);
    ProjectNone(WinReport(env), FailureEvents);
    ProjectAll([CloseLockFile], FailureEvents);
  }
  /** The stages' projections concatenate to the whole sequence. */
  lemma FatalProjection(env: Env)
    requires Completes(env) && env.run == OtherExc
    ensures Project(Launch(env.platform), FailureEvents) + Project(Handle(env.run).events, FailureEvents)
      + Project(Cleanup(env.platform), FailureEvents) + Project(Reached(env), FailureEvents)
      + Project(WinReport(env), FailureEvents) + Project([CloseLockFile], FailureEvents)
      == [PreventClose, LogFatal, LogExiting, Shutdown, Save, CloseLockFile]
  {
    FatalStages(env);
    assert [] + [PreventClose, LogFatal] + [LogExiting, Shutdown] + [Save] + [] + [CloseLockFile]
      == [PreventClose, LogFatal, LogExiting, Shutdown, Save, CloseLockFile];
  }


  /** The actions of a captcha, stage by stage. */
  lemma CaptchaStages(env: Env)
    requires Completes(env) && env.run == Captcha
    ensures Project(Launch(env.platform), FailureEvents) == []
    ensures Project(Handle(env.run).events, FailureEvents) == [PreventClose, LogCaptcha]
    ensures Project(Cleanup(env.platform), FailureEvents) == [LogExiting, Shutdown]
    ensures Project(Reached(env), FailureEvents) == [Save]
    ensures Project(WinReport(env), FailureEvents) == []
    ensures Project([CloseLockFile], FailureEvents) == [CloseLockFile]
  {
    ProjectNone(Launch(env.platform), FailureEvents);
    ProjectAll(Handle(env.run).events, FailureEvents);
    FatalCleanup(env.platform);
    FatalReached(env);
    ProjectNone(WinReport(env), FailureEvents);
    ProjectAll([CloseLockFile], FailureEvents);
  }
  /** The stages' projections concatenate to the whole sequence. */
  lemma CaptchaProjection(env: Env)
    requires Completes(env) && env.run == Captcha
    ensures Project(Launch(env.platform), FailureEvents) + Project(Handle(env.run).events, FailureEvents)
      + Project(Cleanup(env.platform), FailureEvents) + Project(Reached(env), FailureEvents)
      + Project(WinReport(env), FailureEvents) + Project([CloseLockFile], FailureEvents)
      == [PreventClose, LogCaptcha, LogExiting, Shutdown, Save, CloseLockFile]
  {
    CaptchaStages(env);
    assert [] + [PreventClose, LogCaptcha] + [LogExiting, Shutdown] + [Save] + [] + [CloseLockFile]
      == [PreventClose, LogCaptcha, LogExiting, Shutdown, Save, CloseLockFile];
  }


  /** A captcha calls `prevent_close` before it logs the captcha error, and
      the run then closes down like a fatal error: exit status 1. */
  lemma CaptchaSequence(env: Env)
    requires Completes(env) && env.run == Captcha
    ensures Project(Supervise(env).trace, FailureEvents)
      == [PreventClose, LogCaptcha, LogExiting, Shutdown, Save, CloseLockFile]
    ensures Supervise(env).ending == ExitCode(1)
  {
    ProjectStarted(env, FailureEvents);
    CaptchaProjection(env);
  }

  /** End to end, a fatal error in `run()` gives, in order: `prevent_close`,
      the fatal-error log, "exiting", `shutdown()`, the save, the lock file
      closed, and exit status 1. */
  lemma FatalErrorSequence(env: Env)
    requires Completes(env) && env.run == OtherExc
    ensures Project(Supervise(env).trace, FailureEvents)
      == [PreventClose, LogFatal, LogExiting, Shutdown, Save, CloseLockFile]
    ensures Supervise(env).ending == ExitCode(1)
  {
    ProjectStarted(env, FailureEvents);
    FatalProjection(env);
  }
}

=== FILE: translator.dfy ===
/**
 The translator: the language list, the active catalog, switching language
 and looking a message up by its key path.
 */
module Translate {
  import opened Results
  import opened Catalog
  import opened Languages
  import opened DefaultTranslation

  /** The reserved key under which the active catalog names its language. */
  const LanguageNameKey: string := "language_name"

  /** The separator between keys in a missing-key message. */
  const PathSeparator: string := " -> "

  /** What the translator raises. The first three are `ValueError`s; a
      missing key is a `MinerException` naming the current language and the
      joined key path; indexing a message string with a key is a `TypeError`. */
  datatype Error =
    | UnrecognizedLanguage
    | DefinesLanguageName
    | PathExpected
    | MissingKey(language: Node, path: string)
    | NotAMapping

  /** The errors a caller catching `ValueError` swallows. */
  predicate IsValueError(e: Error)
  {
    e.UnrecognizedLanguage? || e.DefinesLanguageName? || e.PathExpected?
  }

  /** The base catalog kept in memory, the language list and the active catalog. */
  datatype Translator = Translator(base: map<string, Node>, langs: seq<string>, translation: map<string, Node>)

  /** The active catalog names its language, so `current` can be read. */
  predicate Valid(t: Translator)
  {
    LanguageNameKey in t.translation
  }

  /** A catalog with its language named `language`. */
  function Named(catalog: map<string, Node>, language: string): map<string, Node>
  {
    catalog[LanguageNameKey := Leaf(language)]
  }

  /** The translator built at startup over the in-memory base catalog
      `base` (`DefaultTranslation.Base()` in the application) and the stems
      of the catalog files found on disk: the default language is active,
      over a copy of the base catalog, and listed first. */
  function New(base: map<string, Node>, stems: seq<string>): (t: Translator)
    ensures Valid(t) && Current(t) == Leaf(DefaultLang)
    ensures t.base == base && t.translation == Named(base, DefaultLang)
    ensures |t.langs| > 0 && t.langs[0] == DefaultLang
    ensures forall l :: l in t.langs <==> l == DefaultLang || l in stems
  {
    Translator(base, LanguageList(stems), Named(base, DefaultLang))
  }

  /** The active language, as the active catalog names it. */
  function Current(t: Translator): Node
    requires Valid(t)
  {
    t.translation[LanguageNameKey]
  }

  /** The translator after a language switch, and what the switch raised. */
  datatype Change = Change(after: Translator, raised: Option<Error>)

  /** Switch to `language`; `load` reads that language's catalog file. An
      unknown language is refused and changes nothing; the active language
      is kept as is; the default language restores the base catalog; any
      other language replaces the catalog with the loaded one, which is then
      refused, already in place, if it names its own language. */
  function SetLanguage(t: Translator, language: string, load: string -> map<string, Node>): (r: Change)
    requires Valid(t)
    ensures Valid(r.after)
    ensures r.after.base == t.base && r.after.langs == t.langs
    ensures r.raised.Some? ==> IsValueError(r.raised.value)
    ensures r.raised.Some? ==> r.raised.value == UnrecognizedLanguage || r.raised.value == DefinesLanguageName
    ensures r.raised == Some(UnrecognizedLanguage) <==> language !in t.langs
    ensures language !in t.langs ==> r.after == t
    ensures r.raised.None? ==> Current(r.after) == Leaf(language)
    ensures r.raised == Some(DefinesLanguageName) <==>
      && language in t.langs && Current(t) != Leaf(language) && language != DefaultLang
      && LanguageNameKey in load(language)
  {
    if language !in t.langs then
      Change(t, Some(UnrecognizedLanguage))
    else if t.translation[LanguageNameKey] == Leaf(language) then
      Change(t, None)
    else if language == DefaultLang then
      Change(t.(translation := Named(t.base, language)), None)
    else
      var loaded := load(language);
      if LanguageNameKey in loaded then
        Change(t.(translation := loaded), Some(DefinesLanguageName))
      else
        Change(t.(translation := Named(loaded, language)), None)
  }

  /** Selecting the active language again changes nothing and raises nothing. */
  lemma SetCurrentIsNoOp(t: Translator, load: string -> map<string, Node>)
    requires Valid(t) && Current(t).Leaf? && Current(t).text in t.langs
    ensures SetLanguage(t, Current(t).text, load) == Change(t, None)
  {
  }

  /** Switching to the default language from any other makes the active
      catalog the base catalog, named after the default language, without
      reading any file. */
  lemma SetDefaultRestoresBase(t: Translator, load: string -> map<string, Node>)
    requires Valid(t) && DefaultLang in t.langs && Current(t) != Leaf(DefaultLang)
    ensures var r := SetLanguage(t, DefaultLang, load);
      && r.raised == None
      && (forall k :: k in t.base && k != LanguageNameKey ==> k in r.after.translation && r.after.translation[k] == t.base[k])
      && r.after.translation.Keys == t.base.Keys + {LanguageNameKey}
      && Current(r.after) == Leaf(DefaultLang)
  {
  }

  /** A loaded catalog that names its own language is refused only after it
      has replaced the active catalog: the previous language is not kept,
      and the active language becomes whatever the loaded catalog names. */
  lemma RejectedOverlayStays(t: Translator, language: string, load: string -> map<string, Node>)
    requires Valid(t) && language in t.langs && language != DefaultLang && Current(t) != Leaf(language)
    requires LanguageNameKey in load(language)
    ensures var r := SetLanguage(t, language, load);
      && r.raised == Some(DefinesLanguageName)
      && r.after.translation == load(language)
      && Current(r.after) == load(language)[LanguageNameKey]
  {
  }

  /** A loaded catalog that leaves the reserved key alone becomes the active
      catalog, with the reserved key naming the requested language. */
  lemma AcceptedOverlay(t: Translator, language: string, load: string -> map<string, Node>)
    requires Valid(t) && language in t.langs && language != DefaultLang && Current(t) != Leaf(language)
    requires LanguageNameKey !in load(language)
    ensures var r := SetLanguage(t, language, load);
      && r.raised == None
      && (forall k :: k in load(language) ==> k in r.after.translation && r.after.translation[k] == load(language)[k])
      && r.after.translation.Keys == load(language).Keys + {LanguageNameKey}
  {
  }

  /** Look a message up by its key path. */
  function Lookup(t: Translator, path: seq<string>): (r: Result<Node, Error>)
    requires Valid(t)
    ensures r == Failure(PathExpected) <==> |path| == 0
    ensures r.Success? <==> |path| > 0 && Walk(Map(t.translation), path).Found?
    ensures r.Success? ==> Walk(Map(t.translation), path) == Found(r.value)
    ensures r.Failure? && r.error.MissingKey? <==> |path| > 0 && Walk(Map(t.translation), path).KeyMissing?
    ensures r.Failure? && r.error.MissingKey? ==> r.error == MissingKey(Current(t), Join(path, PathSeparator))
    ensures r == Failure(NotAMapping) <==> |path| > 0 && Walk(Map(t.translation), path).IndexedLeaf?
    ensures r.Failure? && IsValueError(r.error) <==> |path| == 0
  {
    if |path| == 0 then Failure(PathExpected)
    else match Walk(Map(t.translation), path)
      case Found(v) => Success(v)
      case KeyMissing => Failure(MissingKey(Current(t), Join(path, PathSeparator)))
      case IndexedLeaf => Failure(NotAMapping)
  }

  /** Looking up `p + q` is looking up `p` and walking `q` from the node it
      returned; a failure on `p` is the failure of the whole lookup, except
      that a missing key names the whole path. */
  lemma LookupExtends(t: Translator, p: seq<string>, q: seq<string>)
    requires Valid(t) && |p| > 0
    ensures Lookup(t, p).Success? ==>
      Lookup(t, p + q).Success? == Walk(Lookup(t, p).value, q).Found?
    ensures Lookup(t, p).Success? && Walk(Lookup(t, p).value, q).Found? ==>
      Lookup(t, p + q) == Success(Walk(Lookup(t, p).value, q).node)
    ensures Lookup(t, p) == Failure(NotAMapping) ==> Lookup(t, p + q) == Failure(NotAMapping)
    ensures Lookup(t, p).Failure? && Lookup(t, p).error.MissingKey? ==>
      Lookup(t, p + q) == Failure(MissingKey(Current(t), Join(p + q, PathSeparator)))
  {
    WalkAppend(Map(t.translation), p, q);
  }

  /** Looking up the reserved key alone gives the active language. */
  lemma LookupLanguageName(t: Translator)
    requires Valid(t)
    ensures Lookup(t, [LanguageNameKey]) == Success(Current(t))
  {
    assert [LanguageNameKey][1..] == [];
    assert Walk(Map(t.translation), [LanguageNameKey]) == Walk(Current(t), []);
  }

  /** Naming a catalog's language changes no lookup outside the reserved key. */
  lemma NamedWalk(catalog: map<string, Node>, language: string, p: seq<string>)
    requires |p| > 0 && p[0] != LanguageNameKey
    ensures Walk(Map(Named(catalog, language)), p) == Walk(Map(catalog), p)
  {
  }

  /** A translator built over a catalog that has every declared field, and
      leaves the reserved key to the translator, finds every declared
      message as a message template. */
  lemma NewResolvesDeclared(base: map<string, Node>, stems: seq<string>, p: seq<string>)
    requires Conforms(Map(base), TranslationShape()) && LanguageNameKey !in base
    requires TextPath(TranslationShape(), p)
    ensures Lookup(New(base, stems), p).Success? && Lookup(New(base, stems), p).value.Leaf?
  {
    ConformingResolves(Map(base), TranslationShape(), p);
    assert p[0] in base;
    NamedWalk(base, DefaultLang, p);
  }

  /** Every message the base catalog's type declares is found, as a message
      template, in the translator built at startup. */
  lemma StartupResolvesDeclared(stems: seq<string>, p: seq<string>)
    requires TextPath(TranslationShape(), p)
    ensures Lookup(New(Base(), stems), p).Success? && Lookup(New(Base(), stems), p).value.Leaf?
  {
    NewResolvesDeclared(Base(), stems, p);
  }

  /** The watching status of the translator built at startup is the exact
      template, to be formatted by the caller. */
  lemma StartupWatchingTemplate(stems: seq<string>)
    ensures Lookup(New(Base(), stems), ["status", "watching"]) == Success(Leaf("Watching: {channel}"))
  {
    BaseWatching();
    NamedWalk(Base(), DefaultLang, ["status", "watching"]);
  }

  /** Startup language selection: the configured language is set, and a
      `ValueError` from doing so is swallowed, so the translator stays on
      whatever the failed switch left active. */
  function SelectConfigured(t: Translator, language: string, load: string -> map<string, Node>): (after: Translator)
    requires Valid(t)
    ensures Valid(after) && after.langs == t.langs
    ensures after == SetLanguage(t, language, load).after
    ensures language !in t.langs ==> after == t
  {
    SetLanguage(t, language, load).after
  }

  /** An unknown configured language leaves a freshly built translator on
      the default language. */
  lemma UnknownConfiguredStaysDefault(base: map<string, Node>, stems: seq<string>, language: string,
                                      load: string -> map<string, Node>)
    requires language != DefaultLang && language !in stems
    ensures Current(SelectConfigured(New(base, stems), language, load)) == Leaf(DefaultLang)
  {
  }
}
